=== FILE: README.md ===
# OrbitPong game rules in Dafny

OrbitPong is a browser game. A ball bounces inside a circular arena and the
player steers a paddle that orbits just inside the wall. Two funnels cut into
the wall, one at the top and one at the bottom. A ball that gets past a
funnel's depth ends the session. Every paddle hit scores a point, and every
fifth hit raises the speed level.

This project models the rules of `script.js` that do not depend on the canvas,
audio or DOM code. The whole game is one immutable `GameState` value, and each
handler is a pure function from state to state:

- `geometry.dfy` (`Geometry`): vectors over `real`, the reflection
  `v - 2(v·n)n` and the radial normal. `Math.sqrt`, `Math.atan2`, `Math.cos`
  and `Math.sin` are abstract functions carried by a `MathLib` value.
  The proofs assume only three laws about them: a square root squares back
  to its argument (`SqrtLaw`), `cos² + sin² = 1` (`TrigLaw`), and `atan2`
  returns a value in `[-PI, PI]` from which, with the length, polar
  coordinates give back the vector (`PolarLaw`). `Lawful` is all three, and
  each lemma requires only the laws it uses.
- `entities.dfy` (`Entities`): the records (arena, funnels, ball, paddle,
  particles, hit ring, game state), the effects a step issues, and the values
  `Math.random()` supplies.
- `trail.dfy` (`Trail`): the trail of at most ten pre-move positions.
- `visuals.dfy` (`Visuals`): the particle update, the wall and paddle spark
  bursts, and the hit ring.
- `funnels.dfy` (`Funnels`): the folded angular distance, the first-match
  funnel search, and the classification of a moved ball against the wall.
- `session.dfy` (`Session`): `startGame`, `incrementScore` and `gameOver`.
- `controls.dfy` (`Controls`): the key table, the restart rule, the keyboard
  paddle step and the pointer rule.
- `engine.dfy` (`Engine`): the ball step, the paddle collision and one frame
  of `update`.
- `driver.dfy` (`Driver`): the game driven by a sequence of inputs, and the
  invariant every reachable state keeps.

Effects are labels in a `Step`: sound cues and the request to save the high
score. Every value `Math.random()` would return is a parameter, and
`UnitDraw` states that it lies in `[0, 1)`. Three divisions in the source have
no zero guard:

- the radial normal of `getNormalVector`;
- the minimum-speed renormalisation of `handlePaddleHit`;
- the speed-up rescale of `incrementScore`.

Each of these is a precondition, and `UpdateDefined` collects them for a
whole frame.

The model follows the code where it departs from a reading of the game's
design:

- After `gameOver` fires inside `updateBall`, `update` does not return. The
  particles, the hit ring and the paddle collision are still processed in
  that frame. `Engine.Update` does the same.
- The folded angle test `|a - b|`, then `2 PI - |a - b|` when that is over
  `PI`, is only a shortest-arc distance for angles in `[-PI, PI]`.
  `Math.atan2` only returns such angles, so the game is not affected.
  `Funnels.FoldIsNotPeriodic` shows an input outside that range where the
  test gives the wrong answer.
- `isPaused` is never set to true anywhere in `script.js`. It is kept as a
  field so that `update`'s gate can be stated.
- The constructor sets `arenaRadius = 280` and centres the arena on the
  canvas. `init` then runs the resize routine at once. When the displayed size
  differs from the canvas size (script.js:116), that routine moves the centre,
  sets the radius to 0.45 times the smaller side, and moves the paddle orbit.
  So `InitialState` takes the centre and radius as parameters. The resize
  does not move the ball, which the constructor placed 100 above the canvas
  centre as first created. `InitialState` takes that centre as its own
  parameter. `startGame` puts the ball back relative to the arena centre
  before any frame runs, so no rule can observe the difference.

## Model

| member | source | states |
|---|---|---|
| `Geometry.ReflectFlipsNormalComponent` | script.js:520-524 | with a unit normal, the reflected velocity's component along the normal is the negation of the original's, and the tangential component is kept |
| `Geometry.ReflectPreservesSpeed` | script.js:520-524 | with a unit normal, reflection keeps `vx² + vy²` |
| `Geometry.ReflectInvolution` | script.js:520-524 | with a unit normal, reflecting twice gives back the original velocity |
| `Geometry.NormalVector` | script.js:513-518 | the normal, scaled by the centre distance, is the offset from the centre; the distance must not be zero |
| `Geometry.NormalIsUnit` | script.js:513-518 | the normal of `getNormalVector` has squared length 1, so the wall reflection meets the premise of the reflection lemmas |
| `Geometry.ClampOnRay` | script.js:374-378 | the point `maxDistance` along the angle of an offset lies on the circle of that radius and on the ray through the offset |
| `Trail.PushTrail` | script.js:331-335 | the trail stays within 10 entries, grows by one until full, ends with the pushed position, and keeps the older entries in order |
| `Trail.TrailKeepsMostRecent` | script.js:331-335 | after any history of pushes, the trail is exactly the 10 most recent positions, oldest first |
| `Visuals.UpdateParticles` | script.js:401-409 | the count never grows and every survivor has life > 0 and size > 0.5 |
| `Visuals.UpdateParticlesIsOrderedFilter` | script.js:401-409 | the survivors are the advanced particles at increasing source indices; an index survives exactly when its advanced particle is visible; each survivor moved by its velocity, lost 0.02 life and was scaled by 0.98 |
| `Visuals.UpdateParticlesKeepsBounds` | script.js:401-409 | if all particles had life at most 1, all survivors have life in (0, 1] and positive size |
| `Visuals.WallSparks` | script.js:550-563 | a wall hit makes exactly 3 magenta sparks at the ball with life 1; with draws in [0, 1), velocity components lie in [-1.5, 1.5) and size in [1, 3) |
| `Visuals.PaddleSparks` | script.js:526-548 | a paddle hit makes exactly 4 cyan sparks at the paddle centre with life 1, aimed at the quarter turns; with draws in [0, 1), size lies in [1, 4) |
| `Visuals.PaddleHitEffect` | script.js:526-548 | the ring restarts at the hit point; exactly 4 cyan particles with life 1 are appended at the hit point and the existing ones are kept; with draws in [0, 1) each has size at least 1; nothing else changes |
| `Visuals.PaddleSparkSpeed` | script.js:536-545 | every paddle spark leaves at speed 2 |
| `Visuals.UpdateHitEffect` | script.js:411-419 | no ring stays no ring; a ring that survives keeps its centre and has positive opacity strictly below the previous one |
| `Visuals.RingFades` | script.js:411-419 | `k < 20` frames after a hit, the ring has radius `3k` and opacity `1 - 0.05k` |
| `Visuals.RingClearsOnTwentiethFrame` | script.js:411-419 | a fresh ring is still present after 19 updates and gone after exactly 20 |
| `Funnels.AngleDiffIsShortestArc` | script.js:354-356 | for angles in [-PI, PI] the folded difference lies in [0, PI], is symmetric, and is the least of the arcs over -1, 0 and +1 turns |
| `Funnels.IsInFunnelAgrees` | script.js:386-399 | the unused `isInFunnel` helper, which first normalises to [0, 2 PI), agrees with the inline test on every angle `atan2` returns |
| `Funnels.FoldIsNotPeriodic` | script.js:354-358 | outside [-PI, PI] the fold breaks: an angle one turn below 0.1 tests as inside the bottom funnel although 0.1 does not |
| `Funnels.FirstFunnel` | script.js:353-367 | the loop finds the first funnel containing the angle, and finds none exactly when no funnel contains it |
| `Funnels.Classify` | script.js:341-369 | a moved ball is inside, at a solid wall, in a funnel's corridor, or escaped through a funnel; each of the four outcomes is stated as an if-and-only-if over the distance, the first funnel containing the angle, and that funnel's depth |
| `Session.StartGame` | script.js:284-308 | a new session is playing and not ended, with score, hits and level at 0, 0 and 1, target speed at base, trail, particles and ring cleared, paddle at angle 0, ball at its start point; with draws in [0, 1) the velocity lies in [-2, 2) × [2, 4); the high score and geometry carry over |
| `Session.StartGameForgetsPreviousSession` | script.js:284-308 | two states that differ only in what a session produces start the same new session |
| `Session.IncrementScore` | script.js:473-493 | score and hit count rise by one together; the level rises by one exactly on a multiple of five hits, and the speed-up cue plays exactly then; the speed progression is preserved; nothing else changes |
| `Session.SpeedUpRescalesVelocity` | script.js:481-486 | after a speed-up the velocity has squared length equal to the new target speed squared, is parallel to the old velocity, and, when the new speed is not negative, points the same way (non-negative dot product with the old velocity) |
| `Session.GameOver` | script.js:495-511 | the session stops and is marked ended; the high score becomes the max of itself and the score; the game-over cue plays first; a save request is issued exactly once when the score beats the stored high score, and carries the new high score |
| `Controls.UpdatePaddle` | script.js:320-328 | holding only a left key turns the paddle by -0.08, only a right key by +0.08, both or neither leaves it; nothing else changes |
| `Controls.KeyDown` | script.js:239-246 | the lower-cased key is recorded as held; space starts a new session only when the game has ended, and otherwise only the held set changes |
| `Controls.KeyUp` | script.js:248-250 | the lower-cased key is no longer held and nothing else changes |
| `Controls.PressReleaseRoundTrip` | script.js:239-250 | pressing then releasing a key that was not held, outside the restart case, gives back the original state |
| `Controls.Aim` | script.js:229-277 | the pointer sets the paddle angle while playing and changes nothing otherwise |
| `Controls.ArrowKeysAreRecognised` | script.js:322-326 | the browser's `ArrowLeft`, `ArrowRight`, `A` and `D` lower-case to the names the paddle step tests |
| `Engine.UpdateBall` | script.js:330-384 | the trail gets the pre-move position; counters, target speed, ring, arena, paddle and ball radius are unchanged |
| `Engine.BallStepOutcome` | script.js:341-383 | the session ends exactly when the ball is at the wall, in a funnel, and past that funnel's depth, and then the game-over cue plays; a wall bounce happens exactly at the wall outside every funnel, and adds three particles; no effect is issued exactly when the moved ball is inside the wall or within the first matching funnel's depth, and then the step only records the trail and moves the ball by its velocity |
| `Engine.GameOverOnlyThroughFunnel` | script.js:353-364 | game over needs some funnel whose half-width contains the ball's angle and whose depth the ball has passed |
| `Engine.WallReflectKeepsSpeed` | script.js:369-372 | reflection about the radial normal keeps `vx² + vy²` |
| `Engine.ClampOnWall` | script.js:374-378 | the clamp point lies on the circle of radius `arenaRadius - ball.radius` about the centre, and is the ball's offset from the centre rescaled to that length |
| `Engine.WallBounce` | script.js:369-378 | a wall bounce keeps `vx² + vy²` and puts the ball on the circle of radius `arenaRadius - ball.radius`, on the ray from the centre through the point it had reached |
| `Engine.EnforceMinSpeed` | script.js:456-461 | a ball already at or above the target speed is left alone |
| `Engine.MinSpeedKeepsDirection` | script.js:456-461 | for a non-negative target speed, renormalisation keeps the direction of the velocity: the result is parallel to it and has a non-negative dot product with it |
| `Engine.MinSpeedFloor` | script.js:456-461 | for a non-negative target, after renormalisation the squared speed is at least the target squared, exactly the target squared when it was below, and a velocity whose squared speed already reaches the target squared is unchanged |
| `Engine.PaddleDeflection` | script.js:443-454 | at a non-zero contact offset the normal is a unit vector, and the deflected velocity minus the jitter is the reflection `v - 2(v·n)n` about it, the same formula as the wall's: its component along the normal is negated and its squared speed kept |
| `Engine.HandlePaddleHit` | script.js:437-471 | the ball-to-paddle offset after the push is 1.1 times the offset before; score and hits rise by one; the speed progression is preserved; exactly 4 particles are appended at the paddle centre with life 1, and the existing ones are kept; the ring restarts at the paddle with radius 0 and opacity 1; the effects are the speed-up cue when due, then the paddle cue |
| `Engine.ScoringKeepsSpeedFloor` | script.js:473-486 | scoring a hit leaves a ball that was at or above its target speed still there, and a speed-up puts it exactly at the new target |
| `Engine.PaddleHitRestoresSpeed` | script.js:437-486 | after a paddle hit at a non-zero offset the squared speed is at least the target speed squared, and exactly that on a speed-up |
| `Engine.CheckCollisions` | script.js:421-435 | the state is left alone exactly when the ball does not touch the paddle; a touch applies the paddle hit: score and hits rise by one, the ball-to-paddle offset becomes 1.1 times what it was, the ring restarts at the paddle centre, and the paddle cue is the last effect |
| `Engine.Update` | script.js:310-318 | a frame is a no-op unless playing and not paused; the score rises by 0 or 1, the hit count by the same amount, the level by 0 or 1; the high score never falls |
| `Engine.GameOverFreezes` | script.js:310-311 | once `gameOver` has run, every frame is a no-op |
| `Driver.InitialStateInv` | script.js:19-85 | the constructor's state satisfies the game invariant |
| `Driver.StartGameInv` | script.js:284-308 | every new session satisfies the game invariant |
| `Driver.UpdateBallKeepsInv` | script.js:330-384 | the ball step keeps the invariant, given draws in [0, 1) |
| `Driver.FadeKeepsInv` | script.js:401-419 | the particle and ring updates keep the invariant |
| `Driver.CollisionsKeepInv` | script.js:421-471 | the paddle collision keeps the invariant, given draws in [0, 1) |
| `Driver.UpdateKeepsInv` | script.js:310-318 | one frame keeps the invariant: score equals hit count, level and target speed follow the hit count, the trail stays within 10, never playing and ended at once, particles alive with positive size, the ring visible |
| `Driver.Apply` | script.js:204-318 | handling one input never lowers the high score, and only a frame issues effects |
| `Driver.Run` | script.js:204-318 | over any sequence of inputs the high score never falls, and a sequence without frames issues no effects |
| `Driver.SessionInvariant` | script.js:284-304 | every state reached from one satisfying the invariant satisfies it, so score equals hit count and the level follows the hit count throughout a session |
| `Driver.ReachableStatesKeepInv` | script.js:19-93 | every state reachable from the constructor's state satisfies the invariant |

## Left out

- Rendering: the arena prerender, funnel glow, trail, ball, paddle, particle and ring drawing. These are canvas side effects with no result to state.
- Audio: the synthesizer and the sound toggle. Sound cues appear only as `Effect` labels, in the order they are issued.
- DOM and UI: the overlay, the score display and its animation, and the game-over screen.
- Event wiring: the pointer's screen-to-arena maths. The pointer angle arrives as an input (`Point`) instead of as `Math.atan2` of client coordinates.
- `localStorage`: the high score is an input and `SaveHighScore` is a label. Parsing the stored value is left out.
- Resizing and scheduling: `requestAnimationFrame`, the game-over `setTimeout` and the resize handlers. The arena geometry of a state is fixed, and a resize during a session is not modelled.
- `Math.random`: every draw is a parameter, in the order the code draws it. `UnitDraw` states its range.
- IEEE floating point: coordinates are exact reals. `Math.sqrt`, `Math.atan2`, `Math.cos` and `Math.sin` are abstract, and `SqrtLaw`, `TrigLaw` and `PolarLaw` state the only facts assumed about them. Rounding, `NaN` and infinities are not modelled.
- `toLowerCase`: only ASCII letters are lower-cased. The key names the game reacts to are ASCII.
- Engine.UpdateBall: its contract states what the ball step keeps. The outcome of the step is stated by `Engine.BallStepOutcome`, `Engine.WallBounce` and `Engine.GameOverOnlyThroughFunnel`.
- Engine.Update: it does not state `score == hitCount` or the speed progression itself; those are in the invariant that `Driver.UpdateKeepsInv` proves.
- Engine.GameOverFreezes: only frames are frozen. The start button and the space bar can still start a new session, as in the code.

=== FILE: controls.dfy ===
/** Player input: the keyboard table and restart rule (script.js:239-250),
    the per-frame keyboard step of the paddle (script.js:320-328), and the
    pointer rule that only moves the paddle during play (script.js:229-277). */
module Controls {
  import opened Entities
  import opened Session

  /** The paddle's angular step per frame while a direction key is held. */
  const KeyStep: real := 0.08

  /** `toLowerCase` on the ASCII letters, the only ones the game's key names use. */
  function LowerChar(c: char): char
  {
    if 'A' <= c <= 'Z' then (c as int + 32) as char else c
  }

  function Lower(key: string): string
  {
    seq(|key|, i requires 0 <= i < |key| => LowerChar(key[i]))
  }

  predicate LeftHeld(s: GameState) { "a" in s.held || "arrowleft" in s.held }

  predicate RightHeld(s: GameState) { "d" in s.held || "arrowright" in s.held }

  /** `updatePaddle`: step left, then step right, for each held direction;
      holding both leaves the angle where it was. */
  function UpdatePaddle(s: GameState): (r: GameState)
    ensures LeftHeld(s) && !RightHeld(s) ==> r.paddle.angle == s.paddle.angle - KeyStep
    ensures RightHeld(s) && !LeftHeld(s) ==> r.paddle.angle == s.paddle.angle + KeyStep
    ensures LeftHeld(s) == RightHeld(s) ==> r.paddle.angle == s.paddle.angle
    ensures r.(paddle := s.paddle) == s && r.paddle.(angle := s.paddle.angle) == s.paddle
  {
    var afterLeft := if LeftHeld(s) then s.paddle.angle - KeyStep else s.paddle.angle;
    var afterRight := if RightHeld(s) then afterLeft + KeyStep else afterLeft;
    s.(paddle := s.paddle.(angle := afterRight))
  }

  /** `handleKeyDown`: record the key as held; the space bar starts a new
      session, but only once the previous one has ended. */
  function KeyDown(s: GameState, key: string, d: StartDraws): (r: GameState)
    ensures Lower(key) in r.held && r.held == s.held + {Lower(key)}
    ensures key == " " && s.gameEnded ==>
      r.isPlaying && !r.gameEnded && r.score == 0 && r.hitCount == 0 && r.speedLevel == 1
      && r.particles == [] && r.hitEffect == None && r.highScore == s.highScore
    ensures !(key == " " && s.gameEnded) ==> r.(held := s.held) == s
  {
    var pressed := s.(held := s.held + {Lower(key)});
    if key == " " && s.gameEnded then StartGame(pressed, d) else pressed
  }

  /** `handleKeyUp`: the key is no longer held; nothing else changes. */
  function KeyUp(s: GameState, key: string): (r: GameState)
    ensures Lower(key) !in r.held && r.held == s.held - {Lower(key)}
    ensures r.(held := s.held) == s
  {
    s.(held := s.held - {Lower(key)})
  }

  /** Mouse and touch handlers: the pointer's angle around the arena centre
      becomes the paddle angle, but only while a session is being played. */
  function Aim(s: GameState, angle: real): (r: GameState)
    ensures s.isPlaying ==> r.paddle.angle == angle
    ensures !s.isPlaying ==> r == s
    ensures r.(paddle := s.paddle) == s && r.paddle.(angle := s.paddle.angle) == s.paddle
  {
    if s.isPlaying then s.(paddle := s.paddle.(angle := angle)) else s
  }

  /** Pressing and releasing a key that was not held, outside the restart
      case, gives back the state before the press. */
  lemma PressReleaseRoundTrip(s: GameState, key: string, d: StartDraws)
    requires Lower(key) !in s.held
    requires !(key == " " && s.gameEnded)
    ensures KeyUp(KeyDown(s, key, d), key) == s
  {
    assert KeyDown(s, key, d).held - {Lower(key)} == s.held;
  }

  /** The handlers recognise the key names the browser reports. */
  lemma ArrowKeysAreRecognised()
    ensures Lower("ArrowLeft") == "arrowleft" && Lower("ArrowRight") == "arrowright"
    ensures Lower("A") == "a" && Lower("D") == "d"
  {
  }
}

=== FILE: driver.dfy ===
/** The game driven by its inputs: key presses and releases, pointer moves,
    the start button (script.js:204-282) and animation frames
    (script.js:310-318), and the invariants every reachable state keeps. */
module Driver {
  import opened Geometry
  import opened Entities
  import opened Trail
  import opened Visuals
  import opened Funnels
  import opened Session
  import opened Controls
  import opened Engine

  /** What holds of every state the game reaches: score and hit count move
      together, the speed level and target speed follow the hit count, the
      trail is within its cap, no state is both playing and ended, particles
      are alive and of positive size, and the ring is visible. */
  ghost predicate Inv(s: GameState)
  {
    && s.score == s.hitCount
    && SpeedProgression(s)
    && |s.ball.trail| <= TrailCap
    && !(s.isPlaying && s.gameEnded)
    && (forall i :: 0 <= i < |s.particles| ==>
          0.0 < s.particles[i].life <= 1.0 && s.particles[i].size > 0.0)
    && (s.hitEffect.Some? ==> 0.0 < s.hitEffect.value.opacity <= 1.0)
  }

  lemma InitialStateInv(canvasCenter: Vec, center: Vec, radius: real, highScore: nat)
    ensures Inv(InitialState(canvasCenter, center, radius, highScore))
  {
  }

  lemma StartGameInv(s: GameState, d: StartDraws)
    ensures Inv(StartGame(s, d))
  {
  }

  /** Appending new particles keeps the particle part of `Inv`. */
  lemma AppendKeepsParticleBounds(ps: seq<Particle>, born: seq<Particle>)
    requires forall i :: 0 <= i < |ps| ==> 0.0 < ps[i].life <= 1.0 && ps[i].size > 0.0
    requires forall i :: 0 <= i < |born| ==> born[i].life == 1.0 && born[i].size >= 1.0
    ensures forall i :: 0 <= i < |ps + born| ==>
      0.0 < (ps + born)[i].life <= 1.0 && (ps + born)[i].size > 0.0
  {
    forall i | 0 <= i < |ps + born|
      ensures 0.0 < (ps + born)[i].life <= 1.0 && (ps + born)[i].size > 0.0
    {
      if i >= |ps| {
        assert (ps + born)[i] == born[i - |ps|];
      }
    }
  }

  /** The ball step keeps `Inv` when the wall draws are values `Math.random()`
      can return. */
  lemma UpdateBallKeepsInv(m: MathLib, s: GameState, d: WallDraws)
    requires Inv(s) && BallStepDefined(m, s) && ValidWallDraws(d)
    ensures Inv(UpdateBall(m, s, d).state)
  {
    var b := MoveBall(s.ball);
    var r := UpdateBall(m, s, d).state;
    match Classify(m, s.arena, b.radius, b.pos)
    case Inside =>
    case Corridor(_) =>
    case Escaped(_) =>
      assert r == GameOver(s.(ball := b)).state;
    case Wall =>
      WallBounceState(m, s, d);
      AppendKeepsParticleBounds(s.particles, WallSparks(r.ball.pos, d));
  }

  lemma FadeKeepsInv(s: GameState)
    requires Inv(s)
    ensures Inv(Fade(s))
  {
    UpdateParticlesKeepsBounds(s.particles);
  }

  /** The collision step keeps `Inv` when the paddle draws are values
      `Math.random()` can return. */
  lemma CollisionsKeepInv(m: MathLib, s: GameState, d: PaddleDraws)
    requires Inv(s) && CollisionsDefined(m, s, d) && ValidPaddleDraws(d)
    ensures Inv(CheckCollisions(m, s, d).state)
  {
    if Touching(m, s) {
      var r := HandlePaddleHit(m, s, PaddleCenter(m, s), d).state;
      var n := |s.particles|;
      assert r.particles == s.particles + r.particles[n..];
      AppendKeepsParticleBounds(s.particles, r.particles[n..]);
    }
  }

  /** One frame keeps `Inv`. */
  lemma UpdateKeepsInv(m: MathLib, s: GameState, d: FrameDraws)
    requires Inv(s) && UpdateDefined(m, s, d) && ValidFrameDraws(d)
    ensures Inv(Update(m, s, d).state)
  {
    if Active(s) {
      var s1 := UpdatePaddle(s);
      UpdateBallKeepsInv(m, s1, d.wall);
      var s2 := UpdateBall(m, s1, d.wall).state;
      FadeKeepsInv(s2);
      CollisionsKeepInv(m, Fade(s2), d.paddle);
    }
  }

  /** The events the game reacts to, each carrying what the browser or
      `Math.random()` supplies: the key name, the pointer's angle around the
      arena centre, and the random draws. */
  datatype Input =
    | Press(key: string, start: StartDraws)
    | Release(key: string)
    | Point(angle: real)
    | ClickStart(start: StartDraws)
    | Frame(draws: FrameDraws)

  predicate ApplyDefined(m: MathLib, s: GameState, i: Input)
  {
    i.Frame? ==> UpdateDefined(m, s, i.draws)
  }

  /** The handler of one input. */
  function Apply(m: MathLib, s: GameState, i: Input): (r: Step)
    requires ApplyDefined(m, s, i)
    ensures r.state.highScore >= s.highScore
    ensures !i.Frame? ==> r.effects == []
    ensures i.Release? || i.Point? ==> r.state.score == s.score && r.state.isPlaying == s.isPlaying
  {
    match i
    case Press(key, d) => Step(KeyDown(s, key, d), [])
    case Release(key) => Step(KeyUp(s, key), [])
    case Point(angle) => Step(Aim(s, angle), [])
    case ClickStart(d) => Step(StartGame(s, d), [])
    case Frame(d) => Update(m, s, d)
  }

  /** Every frame along the run has non-zero divisors. */
  predicate RunDefined(m: MathLib, s: GameState, inputs: seq<Input>)
    decreases |inputs|
  {
    inputs == [] ||
    (ApplyDefined(m, s, inputs[0]) && RunDefined(m, Apply(m, s, inputs[0]).state, inputs[1..]))
  }

  /** The state after handling `inputs` in order, and the effects issued. The
      stored high score never decreases, and a run without frames issues no
      effects. */
  function Run(m: MathLib, s: GameState, inputs: seq<Input>): (r: Step)
    requires RunDefined(m, s, inputs)
    ensures r.state.highScore >= s.highScore
    ensures (forall k :: 0 <= k < |inputs| ==> !inputs[k].Frame?) ==> r.effects == []
    decreases |inputs|
  {
    if inputs == [] then Step(s, [])
    else
      var a := Apply(m, s, inputs[0]);
      var rest := Run(m, a.state, inputs[1..]);
      Step(rest.state, a.effects + rest.effects)
  }

  predicate ValidInput(i: Input)
  {
    i.Frame? ==> ValidFrameDraws(i.draws)
  }

  /** Every state reached from one satisfying `Inv` satisfies it: in
      particular `score == hitCount` and the speed progression hold
      throughout a session, and the trail never exceeds its cap. */
  lemma {:induction false} SessionInvariant(m: MathLib, s: GameState, inputs: seq<Input>)
    requires Inv(s) && RunDefined(m, s, inputs)
    requires forall k :: 0 <= k < |inputs| ==> ValidInput(inputs[k])
    ensures Inv(Run(m, s, inputs).state)
    decreases |inputs|
  {
    if inputs != [] {
      var i := inputs[0];
      assert ValidInput(i);
      match i {
        case Frame(d) => UpdateKeepsInv(m, s, d);
        case Press(key, d) =>
          if key == " " && s.gameEnded {
            StartGameInv(s.(held := s.held + {Lower(key)}), d);
          }
        case Release(_) =>
        case Point(_) =>
        case ClickStart(d) => StartGameInv(s, d);
      }
      SessionInvariant(m, Apply(m, s, i).state, inputs[1..]);
    }
  }

  /** From the constructor's state, any sequence of inputs leads to a state
      satisfying `Inv`. */
  lemma ReachableStatesKeepInv(m: MathLib, canvasCenter: Vec, center: Vec, radius: real, highScore: nat, inputs: seq<Input>)
    requires RunDefined(m, InitialState(canvasCenter, center, radius, highScore), inputs)
    requires forall k :: 0 <= k < |inputs| ==> ValidInput(inputs[k])
    ensures Inv(Run(m, InitialState(canvasCenter, center, radius, highScore), inputs).state)
  {
    InitialStateInv(canvasCenter, center, radius, highScore);
    SessionInvariant(m, InitialState(canvasCenter, center, radius, highScore), inputs);
  }
}

=== FILE: engine.dfy ===
/** One frame of `update` (script.js:310-318): paddle, ball, particles, hit
    ring, then collisions, in that order. The ball step (script.js:330-384)
    records the trail, moves the ball and resolves the wall and funnels; the
    collision step (script.js:421-471) handles the paddle. */
module Engine {
  import opened Geometry
  import opened Entities
  import opened Trail
  import opened Visuals
  import opened Funnels
  import opened Session
  import opened Controls

  // --------------------------------------------------------------- ball step

  /** Push the pre-move position onto the trail, then move by the velocity. */
  function MoveBall(b: Ball): Ball
  {
    b.(trail := PushTrail(b.trail, b.pos), pos := Add(b.pos, b.vel))
  }

  /** The wall branch divides by the distance from the centre
      (`getNormalVector`), so that distance must not be 0 there. */
  predicate BallStepDefined(m: MathLib, s: GameState)
  {
    var b := MoveBall(s.ball);
    Classify(m, s.arena, b.radius, b.pos).Wall? ==> CenterDistance(m, s.arena, b.pos) != 0.0
  }

  /** The wall clamp of `updateBall`: the point at distance
      `arenaRadius - br` from the centre, at the angle of `p`. */
  function ClampToWall(m: MathLib, arena: Arena, br: real, p: Vec): Vec
  {
    var angle := BallAngle(m, arena, p);
    var maxDistance := arena.radius - br;
    Vec(arena.center.x + Cos(m, angle) * maxDistance, arena.center.y + Sin(m, angle) * maxDistance)
  }

  /** `updateBall`. On escape it calls `gameOver` and returns; at a solid wall
      it reflects the velocity about the radial normal, puts the ball back on
      the circle of radius `arenaRadius - ball.radius` along its angle, and
      adds a wall burst. */
  function UpdateBall(m: MathLib, s: GameState, d: WallDraws): (r: Step)
    requires BallStepDefined(m, s)
    ensures r.state.ball.trail == PushTrail(s.ball.trail, s.ball.pos)
    ensures r.state.score == s.score && r.state.hitCount == s.hitCount
    ensures r.state.speedLevel == s.speedLevel && r.state.ball.speed == s.ball.speed
    ensures r.state.ball.baseSpeed == s.ball.baseSpeed && r.state.hitEffect == s.hitEffect
    ensures r.state.arena == s.arena && r.state.paddle == s.paddle && r.state.ball.radius == s.ball.radius
  {
    var b := MoveBall(s.ball);
    var moved := s.(ball := b);
    match Classify(m, s.arena, b.radius, b.pos)
    case Inside => Step(moved, [])
    case Corridor(_) => Step(moved, [])
    case Escaped(_) => GameOver(moved)
    case Wall =>
      var vel := Reflect(b.vel, NormalVector(m, s.arena.center, b.pos));
      var pos := ClampToWall(m, s.arena, b.radius, b.pos);
      Step(moved.(ball := b.(vel := vel, pos := pos), particles := s.particles + WallSparks(pos, d)),
           [PlayWallHit])
  }

  /** The game ends in a ball step exactly when the moved ball is at or past
      the wall, the first funnel containing its angle exists, and the ball is
      beyond that funnel's depth. Otherwise the frame goes on playing, and it
      bounces off the wall exactly when no funnel contains the angle. */
  lemma BallStepOutcome(m: MathLib, s: GameState, d: WallDraws)
    requires s.isPlaying && !s.gameEnded
    requires BallStepDefined(m, s)
    ensures var p := MoveBall(s.ball).pos;
      var dist := CenterDistance(m, s.arena, p);
      var first := FirstFunnel(s.arena.funnels, BallAngle(m, s.arena, p));
      var r := UpdateBall(m, s, d);
      && (!r.state.isPlaying <==>
            dist >= s.arena.radius - s.ball.radius && first.Some?
            && dist > s.arena.radius + s.arena.funnels[first.value].depth)
      && (!r.state.isPlaying ==> r.state.gameEnded && r.effects[0] == PlayGameOver)
      && (r.effects == [PlayWallHit] <==>
            dist >= s.arena.radius - s.ball.radius && first.None?)
      && (r.effects == [PlayWallHit] ==> |r.state.particles| == |s.particles| + 3)
      && (r.effects == [] ==> r.state == s.(ball := MoveBall(s.ball)))
      && (r.effects == [] <==>
            dist < s.arena.radius - s.ball.radius
            || (first.Some? && dist <= s.arena.radius + s.arena.funnels[first.value].depth))
  {
  }

  /** Game over needs a funnel: the ball must be inside some funnel's
      half-width and beyond `arenaRadius + depth` of that funnel. */
  lemma GameOverOnlyThroughFunnel(m: MathLib, s: GameState, d: WallDraws)
    requires s.isPlaying && BallStepDefined(m, s)
    requires !UpdateBall(m, s, d).state.isPlaying
    ensures var p := MoveBall(s.ball).pos;
      exists i :: 0 <= i < |s.arena.funnels|
        && InFunnel(BallAngle(m, s.arena, p), s.arena.funnels[i])
        && CenterDistance(m, s.arena, p) > s.arena.radius + s.arena.funnels[i].depth
  {
    var p := MoveBall(s.ball).pos;
    var i := Classify(m, s.arena, s.ball.radius, p).i;
    assert InFunnel(BallAngle(m, s.arena, p), s.arena.funnels[i]);
  }

  /** The state a wall bounce produces, spelled out from its parts. */
  lemma WallBounceState(m: MathLib, s: GameState, d: WallDraws)
    requires BallStepDefined(m, s)
    requires Classify(m, s.arena, s.ball.radius, MoveBall(s.ball).pos).Wall?
    ensures var r := UpdateBall(m, s, d).state;
      var p := MoveBall(s.ball).pos;
      && r.ball.vel == Reflect(s.ball.vel, NormalVector(m, s.arena.center, p))
      && r.ball.pos == ClampToWall(m, s.arena, s.ball.radius, p)
      && r.particles == s.particles + WallSparks(r.ball.pos, d)
      && r.isPlaying == s.isPlaying && r.gameEnded == s.gameEnded
  {
  }

  /** The clamped point is the polar point of `ClampOnRay`, so it inherits
      that point's place on the circle and the ray. */
  lemma ClampIsPolarPoint(m: MathLib, arena: Arena, br: real, p: Vec, v: Vec, k: real)
    requires v == Sub(p, arena.center) && k == arena.radius - br
    requires OnRay(Vec(Cos(m, Atan2(m, v.y, v.x)) * k, Sin(m, Atan2(m, v.y, v.x)) * k), k, v, Magnitude(m, v))
    ensures OnRay(Sub(ClampToWall(m, arena, br, p), arena.center), k, v, CenterDistance(m, arena, p))
  {
  }

  /** The clamp of the wall branch: the clamped point is at distance
      `|arenaRadius - br|` from the centre, on the ray through `p`. */
  lemma ClampOnWall(m: MathLib, arena: Arena, br: real, p: Vec)
    requires TrigLaw(m) && PolarLaw(m)
    requires CenterDistance(m, arena, p) != 0.0
    ensures OnRay(Sub(ClampToWall(m, arena, br, p), arena.center), arena.radius - br,
                  Sub(p, arena.center), CenterDistance(m, arena, p))
  {
    var v := Sub(p, arena.center);
    var k := arena.radius - br;
    ClampOnRay(m, v, k);
    ClampIsPolarPoint(m, arena, br, p, v, k);
  }

  /** The reflection of the wall branch keeps the squared speed. */
  lemma WallReflectKeepsSpeed(m: MathLib, c: Vec, p: Vec, vel: Vec)
    requires SqrtLaw(m)
    requires Magnitude(m, Sub(p, c)) != 0.0
    ensures Norm2(Reflect(vel, NormalVector(m, c, p))) == Norm2(vel)
  {
    NormalIsUnit(m, c, p);
    ReflectPreservesSpeed(vel, NormalVector(m, c, p));
  }

  /** A wall bounce keeps the squared speed, and puts the ball on the circle
      of radius `arenaRadius - ball.radius`, on the ray from the centre
      through the position it had reached. */
  lemma WallBounce(m: MathLib, s: GameState, d: WallDraws)
    requires Lawful(m)
    requires BallStepDefined(m, s)
    requires Classify(m, s.arena, s.ball.radius, MoveBall(s.ball).pos).Wall?
    ensures var r := UpdateBall(m, s, d).state;
      var c := s.arena.center;
      var p := MoveBall(s.ball).pos;
      var maxDistance := s.arena.radius - s.ball.radius;
      && Norm2(r.ball.vel) == Norm2(s.ball.vel)
      && OnRay(Sub(r.ball.pos, c), maxDistance, Sub(p, c), CenterDistance(m, s.arena, p))
      && r.isPlaying == s.isPlaying
  {
    WallBounceState(m, s, d);
    ClampOnWall(m, s.arena, s.ball.radius, MoveBall(s.ball).pos);
    WallReflectKeepsSpeed(m, s.arena.center, MoveBall(s.ball).pos, s.ball.vel);
  }

  // ------------------------------------------------------------- paddle hit

  /** The paddle's centre: `center + orbit * (cos angle, sin angle)`. */
  function PaddleCenter(m: MathLib, s: GameState): Vec
  {
    Vec(s.arena.center.x + Cos(m, s.paddle.angle) * s.paddle.orbit,
        s.arena.center.y + Sin(m, s.paddle.angle) * s.paddle.orbit)
  }

  /** The collision test of `checkCollisions`: centre-to-centre distance only. */
  predicate Touching(m: MathLib, s: GameState)
  {
    Magnitude(m, Sub(s.ball.pos, PaddleCenter(m, s))) <= s.ball.radius + s.paddle.height / 2.0
  }

  /** The reflected and jittered velocity of a paddle hit whose contact
      offset is not zero. */
  function Deflect(m: MathLib, s: GameState, pp: Vec, d: PaddleDraws): Vec
    requires Magnitude(m, Sub(s.ball.pos, pp)) > 0.0
  {
    var off := Sub(s.ball.pos, pp);
    var distance := Magnitude(m, off);
    var v := Reflect(s.ball.vel, Vec(off.x / distance, off.y / distance));
    Vec(v.x + (d.jitterX - 0.5) * 0.5, v.y + (d.jitterY - 0.5) * 0.5)
  }

  /** The paddle deflection is the wall's reflection formula about the unit
      contact normal, followed by the jitter: without the jitter, the
      velocity's component along the normal is negated and its squared speed
      is kept. */
  lemma PaddleDeflection(m: MathLib, s: GameState, pp: Vec, d: PaddleDraws)
    requires SqrtLaw(m)
    requires Magnitude(m, Sub(s.ball.pos, pp)) > 0.0
    ensures var off := Sub(s.ball.pos, pp);
      var n := Vec(off.x / Magnitude(m, off), off.y / Magnitude(m, off));
      var jitter := Vec((d.jitterX - 0.5) * 0.5, (d.jitterY - 0.5) * 0.5);
      && Norm2(n) == 1.0
      && Sub(Deflect(m, s, pp, d), jitter) == Reflect(s.ball.vel, n)
      && Dot(Sub(Deflect(m, s, pp, d), jitter), n) == -Dot(s.ball.vel, n)
      && Norm2(Sub(Deflect(m, s, pp, d), jitter)) == Norm2(s.ball.vel)
  {
    var off := Sub(s.ball.pos, pp);
    var len := Magnitude(m, off);
    var n := Vec(off.x / len, off.y / len);
    var jitter := Vec((d.jitterX - 0.5) * 0.5, (d.jitterY - 0.5) * 0.5);
    MagnitudeSquares(m, off);
    UnitDirection(off, len);
    ReflectFlipsNormalComponent(s.ball.vel, n);
    ReflectPreservesSpeed(s.ball.vel, n);
    assert Sub(Deflect(m, s, pp, d), jitter) == Reflect(s.ball.vel, n);
  }

  /** The minimum-speed renormalisation divides by the current speed with no
      guard, so a velocity below the target must not be zero. */
  predicate MinSpeedDefined(m: MathLib, v: Vec, target: real)
  {
    Magnitude(m, v) < target ==> Magnitude(m, v) != 0.0
  }

  /** "Ensure minimum speed" (script.js:456-461). */
  function EnforceMinSpeed(m: MathLib, v: Vec, target: real): (r: Vec)
    requires MinSpeedDefined(m, v, target)
    ensures Magnitude(m, v) >= target ==> r == v
  {
    var speed := Magnitude(m, v);
    if speed < target then Vec(v.x / speed * target, v.y / speed * target) else v
  }

  /** Renormalisation to a non-negative target keeps the direction of the
      velocity: the result is parallel to it and points the same way. */
  lemma MinSpeedKeepsDirection(m: MathLib, v: Vec, target: real)
    requires SqrtLaw(m)
    requires target >= 0.0
    requires MinSpeedDefined(m, v, target)
    ensures EnforceMinSpeed(m, v, target).x * v.y == EnforceMinSpeed(m, v, target).y * v.x
    ensures Dot(EnforceMinSpeed(m, v, target), v) >= 0.0
  {
    var speed := Magnitude(m, v);
    MagnitudeSquares(m, v);
    if speed < target {
      RescaleKeepsDirection(v, speed, target);
    } else {
      Norm2NonNegative(v);
    }
  }

  /** Renormalisation never slows the ball below the target, brings a slow
      ball exactly to the target, and leaves a fast enough ball alone;
      `MinSpeedKeepsDirection` states that it keeps the direction. */
  lemma MinSpeedFloor(m: MathLib, v: Vec, target: real)
    requires SqrtLaw(m)
    requires target >= 0.0
    requires MinSpeedDefined(m, v, target)
    ensures Norm2(EnforceMinSpeed(m, v, target)) >= target * target
    ensures Norm2(v) < target * target ==> Norm2(EnforceMinSpeed(m, v, target)) == target * target
    ensures Norm2(v) >= target * target ==> EnforceMinSpeed(m, v, target) == v
  {
    var speed := Magnitude(m, v);
    MagnitudeSquares(m, v);
    MagnitudeBelow(m, v, target);
    if speed < target {
      RescaleToLength(v, speed, target);
    }
  }

  predicate HitVelocityDefined(m: MathLib, s: GameState, pp: Vec, d: PaddleDraws)
  {
    Magnitude(m, Sub(s.ball.pos, pp)) > 0.0 ==> MinSpeedDefined(m, Deflect(m, s, pp, d), s.ball.speed)
  }

  /** The velocity after the paddle response: unchanged when the ball sits
      exactly on the paddle centre, else reflected, jittered and renormalised. */
  function HitVelocity(m: MathLib, s: GameState, pp: Vec, d: PaddleDraws): Vec
    requires HitVelocityDefined(m, s, pp, d)
  {
    if Magnitude(m, Sub(s.ball.pos, pp)) > 0.0
    then EnforceMinSpeed(m, Deflect(m, s, pp, d), s.ball.speed)
    else s.ball.vel
  }

  /** Every division of a paddle hit has a non-zero divisor: the
      renormalisation, and the speed-up rescale when this hit is a fifth one. */
  predicate PaddleHitDefined(m: MathLib, s: GameState, pp: Vec, d: PaddleDraws)
  {
    && HitVelocityDefined(m, s, pp, d)
    && (SpeedUpDue(s) ==> Magnitude(m, HitVelocity(m, s, pp, d)) != 0.0)
  }

  /** The ball after the paddle response and the push away from the paddle
      centre `pp`, before the hit is scored. */
  function PushOut(m: MathLib, s: GameState, pp: Vec, d: PaddleDraws): GameState
    requires HitVelocityDefined(m, s, pp, d)
  {
    var off := Sub(s.ball.pos, pp);
    s.(ball := s.ball.(vel := HitVelocity(m, s, pp, d),
                       pos := Vec(pp.x + off.x * 1.1, pp.y + off.y * 1.1)))
  }

  /** `handlePaddleHit` with the paddle centre `pp`, followed by
      `incrementScore` and `createPaddleHitEffect`. */
  function HandlePaddleHit(m: MathLib, s: GameState, pp: Vec, d: PaddleDraws): (r: Step)
    requires PaddleHitDefined(m, s, pp, d)
    ensures Sub(r.state.ball.pos, pp) == Scale(1.1, Sub(s.ball.pos, pp))
    ensures r.state.score == s.score + 1 && r.state.hitCount == s.hitCount + 1
    ensures SpeedProgression(s) ==> SpeedProgression(r.state)
    ensures r.state.speedLevel == s.speedLevel || r.state.speedLevel == s.speedLevel + 1
    ensures |r.state.particles| == |s.particles| + 4 && r.state.particles[..|s.particles|] == s.particles
    ensures forall i :: |s.particles| <= i < |r.state.particles| ==>
      r.state.particles[i].life == 1.0 && r.state.particles[i].pos == pp
    ensures ValidPaddleDraws(d) ==>
      forall i :: |s.particles| <= i < |r.state.particles| ==> r.state.particles[i].size >= 1.0
    ensures r.state.hitEffect == Some(FreshRing(pp))
    ensures r.effects == (if SpeedUpDue(s) then [PlaySpeedUp] else []) + [PlayPaddleHit]
    ensures r.state.isPlaying == s.isPlaying && r.state.gameEnded == s.gameEnded
    ensures r.state.highScore == s.highScore && r.state.ball.trail == s.ball.trail
  {
    var scored := IncrementScore(m, PushOut(m, s, pp, d));
    Step(PaddleHitEffect(m, scored.state, pp, d.sizes), scored.effects + [PlayPaddleHit])
  }

  /** Scoring a hit keeps the ball at or above its target speed: without a
      speed-up the ball is untouched, and a speed-up sets the speed to the new
      target exactly. */
  lemma ScoringKeepsSpeedFloor(m: MathLib, t: GameState)
    requires SqrtLaw(m)
    requires SpeedUpDue(t) ==> Magnitude(m, t.ball.vel) != 0.0
    requires !SpeedUpDue(t) ==> AtLeastTargetSpeed(t.ball)
    ensures AtLeastTargetSpeed(IncrementScore(m, t).state.ball)
    ensures SpeedUpDue(t) ==> AtTargetSpeed(IncrementScore(m, t).state.ball)
  {
    if SpeedUpDue(t) {
      SpeedUpRescalesVelocity(m, t);
    }
  }

  /** The ball a paddle hit leaves is the one scoring the pushed-out ball
      leaves. */
  lemma PaddleHitBall(m: MathLib, s: GameState, pp: Vec, d: PaddleDraws)
    requires PaddleHitDefined(m, s, pp, d)
    ensures HandlePaddleHit(m, s, pp, d).state.ball == IncrementScore(m, PushOut(m, s, pp, d)).state.ball
    ensures Magnitude(m, Sub(s.ball.pos, pp)) > 0.0 ==>
      PushOut(m, s, pp, d).ball.vel == EnforceMinSpeed(m, Deflect(m, s, pp, d), s.ball.speed)
    ensures PushOut(m, s, pp, d).ball.speed == s.ball.speed
    ensures SpeedUpDue(PushOut(m, s, pp, d)) == SpeedUpDue(s)
  {
  }

  /** After a paddle hit at a non-zero offset the ball moves at least at its
      target speed: the renormalisation restores the floor, and a speed-up
      sets the speed to the new target exactly. */
  lemma PaddleHitRestoresSpeed(m: MathLib, s: GameState, pp: Vec, d: PaddleDraws)
    requires SqrtLaw(m)
    requires PaddleHitDefined(m, s, pp, d)
    requires s.ball.speed >= 0.0
    requires Magnitude(m, Sub(s.ball.pos, pp)) > 0.0
    ensures AtLeastTargetSpeed(HandlePaddleHit(m, s, pp, d).state.ball)
    ensures SpeedUpDue(s) ==> AtTargetSpeed(HandlePaddleHit(m, s, pp, d).state.ball)
  {
    PaddleHitBall(m, s, pp, d);
    RenormalisedBallFastEnough(m, PushOut(m, s, pp, d).ball, Deflect(m, s, pp, d));
    ScoringKeepsSpeedFloor(m, PushOut(m, s, pp, d));
  }

  /** A ball whose velocity is the renormalisation of `v` to its own target
      speed moves at least at that speed. */
  lemma RenormalisedBallFastEnough(m: MathLib, b: Ball, v: Vec)
    requires SqrtLaw(m)
    requires b.speed >= 0.0 && MinSpeedDefined(m, v, b.speed)
    requires b.vel == EnforceMinSpeed(m, v, b.speed)
    ensures AtLeastTargetSpeed(b)
  {
    MinSpeedFloor(m, v, b.speed);
  }

  predicate CollisionsDefined(m: MathLib, s: GameState, d: PaddleDraws)
  {
    Touching(m, s) ==> PaddleHitDefined(m, s, PaddleCenter(m, s), d)
  }

  /** `checkCollisions`. */
  function CheckCollisions(m: MathLib, s: GameState, d: PaddleDraws): (r: Step)
    requires CollisionsDefined(m, s, d)
    ensures !Touching(m, s) <==> r == Step(s, [])
    ensures Touching(m, s) ==>
      var pp := PaddleCenter(m, s);
      && r.state.score == s.score + 1 && r.state.hitCount == s.hitCount + 1
      && Sub(r.state.ball.pos, pp) == Scale(1.1, Sub(s.ball.pos, pp))
      && r.state.hitEffect == Some(FreshRing(pp))
      && |r.effects| > 0 && r.effects[|r.effects| - 1] == PlayPaddleHit
  {
    if Touching(m, s) then HandlePaddleHit(m, s, PaddleCenter(m, s), d) else Step(s, [])
  }

  // ------------------------------------------------------------------ frame

  /** `update` runs only while playing and not paused. */
  predicate Active(s: GameState) { s.isPlaying && !s.isPaused }

  /** `updateParticles` then `updateHitEffect`. */
  function Fade(s: GameState): GameState
  {
    s.(particles := UpdateParticles(s.particles), hitEffect := UpdateHitEffect(s.hitEffect))
  }

  /** No division in this frame has a zero divisor. */
  predicate UpdateDefined(m: MathLib, s: GameState, d: FrameDraws)
  {
    Active(s) ==>
      && BallStepDefined(m, UpdatePaddle(s))
      && CollisionsDefined(m, Fade(UpdateBall(m, UpdatePaddle(s), d.wall).state), d.paddle)
  }

  /** `update`. Note that the frame does not stop at `gameOver`: particles,
      ring and paddle collision are still processed. */
  function Update(m: MathLib, s: GameState, d: FrameDraws): (r: Step)
    requires UpdateDefined(m, s, d)
    ensures !Active(s) ==> r == Step(s, [])
    ensures r.state.score == s.score || r.state.score == s.score + 1
    ensures r.state.hitCount - s.hitCount == r.state.score - s.score
    ensures r.state.speedLevel == s.speedLevel || r.state.speedLevel == s.speedLevel + 1
    ensures r.state.highScore >= s.highScore
  {
    if !Active(s) then Step(s, [])
    else
      var s1 := UpdatePaddle(s);
      var b := UpdateBall(m, s1, d.wall);
      var c := CheckCollisions(m, Fade(b.state), d.paddle);
      Step(c.state, b.effects + c.effects)
  }

  /** After `gameOver` every later frame is a no-op. */
  lemma GameOverFreezes(m: MathLib, s: GameState, d: FrameDraws)
    ensures UpdateDefined(m, GameOver(s).state, d)
    ensures Update(m, GameOver(s).state, d) == Step(GameOver(s).state, [])
  {
  }
}

=== FILE: entities.dfy ===
/** The records of `OrbitPong` (script.js:19-93) as immutable values: arena
    geometry, ball, paddle, particles, the hit ring and the whole game state,
    plus the values `Math.random()` supplies, passed in rather than drawn. */
module Entities {
  import opened Geometry

  datatype Option<+T> = None | Some(value: T)

  /** A gap in the arena wall: angular centre, full angular width, radial depth. */
  datatype Funnel = Funnel(angle: real, width: real, depth: real)

  /** Arena geometry: `centerX`/`centerY`, `arenaRadius`, `funnels`. */
  datatype Arena = Arena(center: Vec, radius: real, funnels: seq<Funnel>)

  /** `speed` is the target magnitude of `vel`; `trail` holds recent positions,
      oldest first. */
  datatype Ball = Ball(
    pos: Vec, vel: Vec, radius: real, speed: real, baseSpeed: real, trail: seq<Vec>)

  /** `orbit` is the paddle's distance from the arena centre (`paddle.radius`). */
  datatype Paddle = Paddle(angle: real, width: real, height: real, orbit: real)

  /** The two particle colours the game uses: paddle sparks and wall sparks. */
  datatype Tint = Cyan | Magenta

  datatype Particle = Particle(pos: Vec, vel: Vec, size: real, life: real, tint: Tint)

  /** The expanding ring drawn after a paddle hit (`hitEffect`). */
  datatype Ring = Ring(center: Vec, radius: real, opacity: real)

  /** Everything `update` reads or writes. `held` is the set of lower-cased key
      names whose last event was a key press (the `keys` table). */
  datatype GameState = GameState(
    isPlaying: bool,
    isPaused: bool,
    gameEnded: bool,
    arena: Arena,
    paddle: Paddle,
    ball: Ball,
    score: nat,
    highScore: nat,
    speedLevel: nat,
    hitCount: nat,
    held: set<string>,
    particles: seq<Particle>,
    hitEffect: Option<Ring>)

  /** Requests to the audio and persistence collaborators, in the order the
      game issues them. */
  datatype Effect = PlayPaddleHit | PlayWallHit | PlaySpeedUp | PlayGameOver | SaveHighScore(value: nat)

  /** A new state together with the effects issued while computing it. */
  datatype Step = Step(state: GameState, effects: seq<Effect>)

  /** A value `Math.random()` can return. */
  predicate UnitDraw(r: real) { 0.0 <= r < 1.0 }

  /** The three draws one wall spark consumes: x velocity, y velocity, size. */
  datatype SparkDraw = SparkDraw(vx: real, vy: real, size: real)

  type WallDraws = s: seq<SparkDraw> | |s| == 3
    witness [SparkDraw(0.0, 0.0, 0.0), SparkDraw(0.0, 0.0, 0.0), SparkDraw(0.0, 0.0, 0.0)]

  type SizeDraws = s: seq<real> | |s| == 4 witness [0.0, 0.0, 0.0, 0.0]

  /** The draws a paddle hit consumes: the velocity jitter, then four spark sizes. */
  datatype PaddleDraws = PaddleDraws(jitterX: real, jitterY: real, sizes: SizeDraws)

  /** The draws `startGame` consumes for the initial velocity. */
  datatype StartDraws = StartDraws(vx: real, vy: real)

  /** Everything one frame of `update` may draw, in the order it draws it. */
  datatype FrameDraws = FrameDraws(wall: WallDraws, paddle: PaddleDraws)

  predicate ValidWallDraws(d: WallDraws)
  {
    forall i :: 0 <= i < 3 ==> UnitDraw(d[i].vx) && UnitDraw(d[i].vy) && UnitDraw(d[i].size)
  }

  predicate ValidPaddleDraws(d: PaddleDraws)
  {
    && UnitDraw(d.jitterX) && UnitDraw(d.jitterY)
    && (forall i :: 0 <= i < 4 ==> UnitDraw(d.sizes[i]))
  }

  predicate ValidFrameDraws(d: FrameDraws)
  {
    ValidWallDraws(d.wall) && ValidPaddleDraws(d.paddle)
  }

  /** The two funnels of the constructor (script.js:30-45): bottom and top,
      30 degrees wide, 40 deep. */
  const DefaultFunnels: seq<Funnel> :=
    [Funnel(PI / 2.0, PI / 6.0, 40.0), Funnel(-PI / 2.0, PI / 6.0, 40.0)]

  /** The state the constructor builds (script.js:19-85) for an arena centred
      at `center` with radius `radius`, before any game has started. The
      constructor places the ball 100 above `canvasCenter`, the centre of the
      canvas as first created. The resize routine that `init` runs at once
      (script.js:106-126) acts only when the displayed size differs from the
      canvas size; it then moves the arena centre, radius and paddle orbit but
      not the ball, so the two centres can differ. `startGame` puts the ball back relative to the
      arena centre before any frame runs. */
  function InitialState(canvasCenter: Vec, center: Vec, radius: real, highScore: nat): GameState
  {
    GameState(
      isPlaying := false, isPaused := false, gameEnded := false,
      arena := Arena(center, radius, DefaultFunnels),
      paddle := Paddle(0.0, 80.0, 15.0, radius - 25.0),
      ball := Ball(Vec(canvasCenter.x, canvasCenter.y - 100.0), Vec(2.0, 3.0), 8.0, 4.0, 4.0, []),
      score := 0, highScore := highScore, speedLevel := 1, hitCount := 0,
      held := {}, particles := [], hitEffect := None)
  }
}

=== FILE: funnels.dfy ===
/** Funnel membership (script.js:348-367, 386-399): the wrapped angular
    distance between the ball and a funnel centre, the first-match search over
    the funnels, and the classification of a moved ball against the arena wall. */
module Funnels {
  import opened Geometry
  import opened Entities

  function Abs(x: real): real { if x >= 0.0 then x else -x }

  /** `angleDiff` of `updateBall`: `|a - b|`, folded once by `2 * PI` when it
      is over `PI`. */
  function AngleDiff(a: real, b: real): real
  {
    var raw := Abs(a - b);
    if raw > PI then 2.0 * PI - raw else raw
  }

  /** Both angles in the range `Math.atan2` returns. */
  predicate InAtan2Range(a: real) { -PI <= a <= PI }

  /** On angles `atan2` can return, `AngleDiff` is the shortest arc: it lies in
      `[0, PI]`, it is symmetric, and it is the smallest of `|a - b + 2 k PI|`
      over the turns `k` in `{-1, 0, 1}` that can matter. */
  lemma AngleDiffIsShortestArc(a: real, b: real)
    requires InAtan2Range(a) && InAtan2Range(b)
    ensures 0.0 <= AngleDiff(a, b) <= PI
    ensures AngleDiff(a, b) == AngleDiff(b, a)
    ensures AngleDiff(a, b) <= Abs(a - b)
    ensures AngleDiff(a, b) <= Abs(a - b + 2.0 * PI)
    ensures AngleDiff(a, b) <= Abs(a - b - 2.0 * PI)
    ensures AngleDiff(a, b) == Abs(a - b) || AngleDiff(a, b) == Abs(a - b + 2.0 * PI)
         || AngleDiff(a, b) == Abs(a - b - 2.0 * PI)
  {
  }

  /** The membership test of `updateBall`'s loop. */
  predicate InFunnel(a: real, f: Funnel)
  {
    AngleDiff(a, f.angle) <= f.width / 2.0
  }

  /** The normalisation of the unused `isInFunnel` helper: into `[0, 2 PI)`. */
  function ToPositiveTurn(a: real): real
  {
    if a < 0.0 then a + 2.0 * PI else a
  }

  /** `isInFunnel`: normalise both angles first, then the same folded test. */
  predicate IsInFunnel(a: real, f: Funnel)
  {
    AngleDiff(ToPositiveTurn(a), ToPositiveTurn(f.angle)) <= f.width / 2.0
  }

  /** The helper and the inline test agree on every angle `atan2` can return. */
  lemma IsInFunnelAgrees(a: real, f: Funnel)
    requires InAtan2Range(a) && InAtan2Range(f.angle)
    ensures IsInFunnel(a, f) <==> InFunnel(a, f)
  {
    assert AngleDiff(ToPositiveTurn(a), ToPositiveTurn(f.angle)) == AngleDiff(a, f.angle);
  }

  /** Outside the range of `atan2` the fold is not periodic: an angle one turn
      below 0.1 lands in the bottom funnel although 0.1 does not. */
  lemma FoldIsNotPeriodic()
    ensures !InFunnel(0.1, DefaultFunnels[0])
    ensures InFunnel(0.1 - 2.0 * PI, DefaultFunnels[0])
  {
  }

  /** The loop of `updateBall`: the index of the first funnel containing `a`,
      if any. */
  function FirstFunnel(fs: seq<Funnel>, a: real): (r: Option<nat>)
    ensures r.Some? ==> r.value < |fs| && InFunnel(a, fs[r.value])
    ensures r.Some? ==> forall j :: 0 <= j < r.value ==> !InFunnel(a, fs[j])
    ensures r.None? <==> forall j :: 0 <= j < |fs| ==> !InFunnel(a, fs[j])
  {
    if fs == [] then None
    else if InFunnel(a, fs[0]) then Some(0)
    else match FirstFunnel(fs[1..], a)
      case None => None
      case Some(i) => Some(i + 1)
  }

  /** Where a moved ball stands with respect to the wall. */
  datatype Boundary =
    | Inside              // closer to the centre than `arenaRadius - ball.radius`
    | Wall                // at the wall, in no funnel
    | Corridor(i: nat)    // in funnel `i`, not yet past its depth
    | Escaped(i: nat)     // in funnel `i` and past `arenaRadius + depth`

  /** `Math.atan2` of the ball relative to the arena centre. */
  function BallAngle(m: MathLib, arena: Arena, p: Vec): real
  {
    Atan2(m, p.y - arena.center.y, p.x - arena.center.x)
  }

  /** The distance from the arena centre. */
  function CenterDistance(m: MathLib, arena: Arena, p: Vec): real
  {
    Magnitude(m, Sub(p, arena.center))
  }

  /** The boundary test of `updateBall` (script.js:342-367) for a ball of
      radius `br` at `p`. */
  function Classify(m: MathLib, arena: Arena, br: real, p: Vec): (r: Boundary)
    ensures r.Inside? <==> CenterDistance(m, arena, p) < arena.radius - br
    ensures r.Wall? <==> CenterDistance(m, arena, p) >= arena.radius - br
                         && FirstFunnel(arena.funnels, BallAngle(m, arena, p)).None?
    ensures (r.Corridor? || r.Escaped?) ==>
      && CenterDistance(m, arena, p) >= arena.radius - br
      && FirstFunnel(arena.funnels, BallAngle(m, arena, p)) == Some(r.i)
    ensures r.Escaped? ==> CenterDistance(m, arena, p) > arena.radius + arena.funnels[r.i].depth
    ensures r.Corridor? ==> CenterDistance(m, arena, p) <= arena.radius + arena.funnels[r.i].depth
    ensures r.Escaped? <==>
      var first := FirstFunnel(arena.funnels, BallAngle(m, arena, p));
      && CenterDistance(m, arena, p) >= arena.radius - br && first.Some?
      && CenterDistance(m, arena, p) > arena.radius + arena.funnels[first.value].depth
    ensures r.Corridor? <==>
      var first := FirstFunnel(arena.funnels, BallAngle(m, arena, p));
      && CenterDistance(m, arena, p) >= arena.radius - br && first.Some?
      && CenterDistance(m, arena, p) <= arena.radius + arena.funnels[first.value].depth
  {
    var dist := CenterDistance(m, arena, p);
    if dist < arena.radius - br then Inside
    else match FirstFunnel(arena.funnels, BallAngle(m, arena, p))
      case None => Wall
      case Some(i) => if dist > arena.radius + arena.funnels[i].depth then Escaped(i) else Corridor(i)
  }
}

=== FILE: geometry.dfy ===
/** Plane vectors over exact reals, the reflection formula the game uses for
    walls and the paddle, and the transcendental functions it calls, kept
    abstract: a `MathLib` value carries them, and `Lawful` lists the only
    facts about them the proofs rely on. */
module Geometry {

  /** The decimal literal of `Math.PI`; the exact double value is not modelled. */
  const PI: real := 3.141592653589793

  datatype Vec = Vec(x: real, y: real)

  function Add(a: Vec, b: Vec): Vec { Vec(a.x + b.x, a.y + b.y) }

  function Sub(a: Vec, b: Vec): Vec { Vec(a.x - b.x, a.y - b.y) }

  function Scale(k: real, a: Vec): Vec { Vec(k * a.x, k * a.y) }

  function Dot(a: Vec, b: Vec): real { a.x * b.x + a.y * b.y }

  /** Squared length `x*x + y*y`, the argument the game hands to `Math.sqrt`. */
  function Norm2(a: Vec): real { Dot(a, a) }

  lemma Norm2NonNegative(a: Vec)
    ensures Norm2(a) >= 0.0
  {
    assert a.x * a.x >= 0.0;
    assert a.y * a.y >= 0.0;
  }

  lemma ProductPositive(a: real, b: real)
    requires a > 0.0 && b > 0.0
    ensures a * b > 0.0
  {
  }

  /** `Math.sqrt`, `Math.atan2(y, x)`, `Math.cos` and `Math.sin`, uninterpreted. */
  datatype MathLib = MathLib(
    sqrt: real -> real,
    atan2: (real, real) -> real,
    cos: real -> real,
    sin: real -> real)

  function Sqrt(m: MathLib, x: real): real { m.sqrt(x) }

  function Atan2(m: MathLib, y: real, x: real): real { m.atan2(y, x) }

  function Cos(m: MathLib, t: real): real { m.cos(t) }

  function Sin(m: MathLib, t: real): real { m.sin(t) }

  /** The square root of a non-negative number is non-negative and squares
      back to it. */
  ghost predicate SqrtLaw(m: MathLib)
  {
    forall x :: 0.0 <= x ==> 0.0 <= Sqrt(m, x) && Sqrt(m, x) * Sqrt(m, x) == x
  }

  /** `cos² + sin² = 1`. */
  ghost predicate TrigLaw(m: MathLib)
  {
    forall t :: Cos(m, t) * Cos(m, t) + Sin(m, t) * Sin(m, t) == 1.0
  }

  /** `atan2` returns an angle in `[-PI, PI]`, and the angle with the length
      gives back the vector. */
  ghost predicate PolarLaw(m: MathLib)
  {
    && (forall y, x :: -PI <= Atan2(m, y, x) <= PI)
    && (forall y, x ::
          Cos(m, Atan2(m, y, x)) * Sqrt(m, x * x + y * y) == x &&
          Sin(m, Atan2(m, y, x)) * Sqrt(m, x * x + y * y) == y)
  }

  /** The facts about the real functions that the proofs use. */
  ghost predicate Lawful(m: MathLib)
  {
    SqrtLaw(m) && TrigLaw(m) && PolarLaw(m)
  }

  /** `Math.sqrt(x*x + y*y)`: the length of a vector. */
  function Magnitude(m: MathLib, a: Vec): real
  {
    Sqrt(m, Norm2(a))
  }

  lemma SqrtSquares(m: MathLib, x: real)
    requires SqrtLaw(m)
    requires x >= 0.0
    ensures Sqrt(m, x) >= 0.0
    ensures Sqrt(m, x) * Sqrt(m, x) == x
    ensures Sqrt(m, x) == 0.0 <==> x == 0.0
  {
    var s := Sqrt(m, x);
    if s != 0.0 {
      calc {
        x;
        s * s;
      > { ProductPositive(s, s); }
        0.0;
      }
    }
  }

  lemma MagnitudeSquares(m: MathLib, a: Vec)
    requires SqrtLaw(m)
    ensures Magnitude(m, a) >= 0.0
    ensures Magnitude(m, a) * Magnitude(m, a) == Norm2(a)
    ensures Magnitude(m, a) == 0.0 <==> Norm2(a) == 0.0
  {
    Norm2NonNegative(a);
    SqrtSquares(m, Norm2(a));
  }

  /** Squaring is strictly monotone on non-negative reals. */
  lemma SquareMonotone(s: real, b: real)
    requires s >= 0.0 && b >= 0.0
    ensures s < b <==> s * s < b * b
  {
    if s < b {
      calc {
        s * s;
      <= s * b;
      < b * b;
      }
    } else {
      calc {
        s * s;
      >= b * s;
      >= b * b;
      }
    }
  }

  /** A magnitude is below a non-negative bound exactly when its square is. */
  lemma MagnitudeBelow(m: MathLib, a: Vec, bound: real)
    requires SqrtLaw(m)
    requires bound >= 0.0
    ensures Magnitude(m, a) < bound <==> Norm2(a) < bound * bound
  {
    MagnitudeSquares(m, a);
    SquareMonotone(Magnitude(m, a), bound);
  }

  /** `v - 2 (v . n) n`: the reflection `reflectBall` applies to walls and
      `handlePaddleHit` applies to the paddle (script.js:447-450, 520-524). */
  function Reflect(v: Vec, n: Vec): Vec
  {
    var d := Dot(v, n);
    Vec(v.x - 2.0 * d * n.x, v.y - 2.0 * d * n.y)
  }

  /** Reflecting about a unit normal flips the normal component of the
      velocity and keeps the tangential one. */
  lemma ReflectFlipsNormalComponent(v: Vec, n: Vec)
    requires Norm2(n) == 1.0
    ensures Dot(Reflect(v, n), n) == -Dot(v, n)
    ensures Dot(Reflect(v, n), Vec(-n.y, n.x)) == Dot(v, Vec(-n.y, n.x))
  {
    var d := Dot(v, n);
    calc {
      Dot(Reflect(v, n), Vec(-n.y, n.x));
      (v.x - 2.0 * d * n.x) * -n.y + (v.y - 2.0 * d * n.y) * n.x;
      Dot(v, Vec(-n.y, n.x)) + 2.0 * d * (n.x * n.y - n.y * n.x);
    }
    calc {
      Dot(Reflect(v, n), n);
      (v.x - 2.0 * d * n.x) * n.x + (v.y - 2.0 * d * n.y) * n.y;
      d - 2.0 * d * (n.x * n.x + n.y * n.y);
      d - 2.0 * d * Norm2(n);
    }
  }

  /** Reflection about a unit normal keeps the squared speed. */
  lemma ReflectPreservesSpeed(v: Vec, n: Vec)
    requires Norm2(n) == 1.0
    ensures Norm2(Reflect(v, n)) == Norm2(v)
  {
    var d := Dot(v, n);
    var r := Reflect(v, n);
    calc {
      Norm2(r);
      (v.x - 2.0 * d * n.x) * (v.x - 2.0 * d * n.x) + (v.y - 2.0 * d * n.y) * (v.y - 2.0 * d * n.y);
      Norm2(v) - 4.0 * d * (v.x * n.x + v.y * n.y) + 4.0 * d * d * (n.x * n.x + n.y * n.y);
      Norm2(v) - 4.0 * d * d + 4.0 * d * d * Norm2(n);
      Norm2(v);
    }
  }

  /** Reflecting twice about the same unit normal gives the velocity back. */
  lemma ReflectInvolution(v: Vec, n: Vec)
    requires Norm2(n) == 1.0
    ensures Reflect(Reflect(v, n), n) == v
  {
    ReflectFlipsNormalComponent(v, n);
    var d := Dot(v, n);
    var r := Reflect(v, n);
    assert Dot(r, n) == -d;
    assert r.x - 2.0 * Dot(r, n) * n.x == v.x;
    assert r.y - 2.0 * Dot(r, n) * n.y == v.y;
  }

  /** Dividing a vector by a length whose square is the vector's squared
      length gives a unit vector. */
  lemma UnitDirection(v: Vec, len: real)
    requires len != 0.0 && len * len == Norm2(v)
    ensures Norm2(Vec(v.x / len, v.y / len)) == 1.0
  {
    var u := Vec(v.x / len, v.y / len);
    assert u.x * len == v.x && u.y * len == v.y;
    calc {
      Norm2(u) * (len * len);
      (u.x * len) * (u.x * len) + (u.y * len) * (u.y * len);
      v.x * v.x + v.y * v.y;
      len * len;
    }
  }

  /** Scaling a unit vector by `k` gives squared length `k * k`. */
  lemma ScaledUnitLength(u: Vec, k: real)
    requires Norm2(u) == 1.0
    ensures Norm2(Vec(u.x * k, u.y * k)) == k * k
  {
    calc {
      Norm2(Vec(u.x * k, u.y * k));
      (u.x * k) * (u.x * k) + (u.y * k) * (u.y * k);
      (u.x * u.x + u.y * u.y) * (k * k);
      k * k;
    }
  }

  /** Rescaling a vector to another length keeps its direction: the result
      is parallel to it. */
  lemma RescaleIsParallel(v: Vec, len: real, k: real)
    requires len != 0.0
    ensures (v.x / len * k) * v.y == (v.y / len * k) * v.x
  {
    var a := k / len;
    assert v.x / len * k == v.x * a;
    assert v.y / len * k == v.y * a;
    calc {
      (v.x * a) * v.y;
      (v.y * a) * v.x;
    }
  }

  /** Rescaling by a non-negative length over a positive one points the same
      way: the result is parallel to the vector and not against it. */
  lemma RescaleKeepsDirection(v: Vec, len: real, k: real)
    requires len > 0.0 && k >= 0.0
    ensures (v.x / len * k) * v.y == (v.y / len * k) * v.x
    ensures Dot(Vec(v.x / len * k, v.y / len * k), v) >= 0.0
  {
    RescaleIsParallel(v, len, k);
    var a := k / len;
    assert a >= 0.0;
    assert v.x / len * k == a * v.x && v.y / len * k == a * v.y;
    calc {
      Dot(Vec(a * v.x, a * v.y), v);
      a * Norm2(v);
    }
    Norm2NonNegative(v);
  }

  /** Rescaling `v` from its length `len` to `k` gives squared length `k * k`
      and keeps the direction: parallel always, the same way when `k` is not
      negative. */
  lemma RescaleToLength(v: Vec, len: real, k: real)
    requires len > 0.0 && len * len == Norm2(v)
    ensures Norm2(Vec(v.x / len * k, v.y / len * k)) == k * k
    ensures (v.x / len * k) * v.y == (v.y / len * k) * v.x
    ensures k >= 0.0 ==> Dot(Vec(v.x / len * k, v.y / len * k), v) >= 0.0
  {
    UnitDirection(v, len);
    var u := Vec(v.x / len, v.y / len);
    ScaledUnitLength(u, k);
    assert Vec(u.x * k, u.y * k) == Vec(v.x / len * k, v.y / len * k);
    RescaleIsParallel(v, len, k);
    if k >= 0.0 {
      RescaleKeepsDirection(v, len, k);
    }
  }

  /** Polar form: `atan2` and the length recover a vector. */
  lemma PolarForm(m: MathLib, v: Vec)
    requires PolarLaw(m)
    ensures Cos(m, Atan2(m, v.y, v.x)) * Magnitude(m, v) == v.x
    ensures Sin(m, Atan2(m, v.y, v.x)) * Magnitude(m, v) == v.y
  {
    assert Cos(m, Atan2(m, v.y, v.x)) * Sqrt(m, v.x * v.x + v.y * v.y) == v.x;
    assert Sin(m, Atan2(m, v.y, v.x)) * Sqrt(m, v.x * v.x + v.y * v.y) == v.y;
    assert Norm2(v) == v.x * v.x + v.y * v.y;
  }

  /** `q` lies on the circle of radius `|k|` about the origin, and is `v`
      rescaled from length `len` to length `k`. */
  predicate OnRay(q: Vec, k: real, v: Vec, len: real)
  {
    len != 0.0 && Norm2(q) == k * k && q == Scale(k / len, v)
  }

  /** Moving a distance `k` along the unit direction `(c, s)` of `v`, whose
      length is `len`, lands on the circle of radius `|k|`, and is scaling `v`
      by `k / len`. */
  lemma AlongRay(c: real, s: real, len: real, v: Vec, k: real)
    requires c * c + s * s == 1.0
    requires len != 0.0 && c * len == v.x && s * len == v.y
    ensures OnRay(Vec(c * k, s * k), k, v, len)
  {
    ScaledUnitLength(Vec(c, s), k);
    assert c == v.x / len && s == v.y / len;
  }

  /** The point at distance `k` along the angle of `v` lies on the circle of
      radius `|k|` and on the ray through `v`. */
  lemma ClampOnRay(m: MathLib, v: Vec, k: real)
    requires TrigLaw(m) && PolarLaw(m)
    requires Magnitude(m, v) != 0.0
    ensures OnRay(Vec(Cos(m, Atan2(m, v.y, v.x)) * k, Sin(m, Atan2(m, v.y, v.x)) * k), k, v, Magnitude(m, v))
  {
    PolarForm(m, v);
    AlongRay(Cos(m, Atan2(m, v.y, v.x)), Sin(m, Atan2(m, v.y, v.x)), Magnitude(m, v), v, k);
  }

  /** `getNormalVector` (script.js:513-518): the direction from `c` to `p`,
      dividing by the distance with no guard, so the distance must not be 0. */
  function NormalVector(m: MathLib, c: Vec, p: Vec): (n: Vec)
    requires Magnitude(m, Sub(p, c)) != 0.0
    ensures n.x * Magnitude(m, Sub(p, c)) == p.x - c.x
    ensures n.y * Magnitude(m, Sub(p, c)) == p.y - c.y
  {
    var len := Magnitude(m, Sub(p, c));
    Vec((p.x - c.x) / len, (p.y - c.y) / len)
  }

  /** The wall normal is a unit vector. */
  lemma NormalIsUnit(m: MathLib, c: Vec, p: Vec)
    requires SqrtLaw(m)
    requires Magnitude(m, Sub(p, c)) != 0.0
    ensures Norm2(NormalVector(m, c, p)) == 1.0
  {
    MagnitudeSquares(m, Sub(p, c));
    UnitDirection(Sub(p, c), Magnitude(m, Sub(p, c)));
  }
}

=== FILE: session.dfy ===
/** The session counters and flags: `startGame` (script.js:284-308),
    `incrementScore` (script.js:473-493) and `gameOver` (script.js:495-511). */
module Session {
  import opened Geometry
  import opened Entities

  /** The speed level and the ball's target speed are the functions of the hit
      count that `incrementScore` maintains: one level per five hits, half a
      unit of speed per level. */
  ghost predicate SpeedProgression(s: GameState)
  {
    && s.speedLevel == 1 + s.hitCount / 5
    && s.ball.speed == s.ball.baseSpeed + (s.speedLevel - 1) as real * 0.5
  }

  /** `startGame`: a fresh session. `d` holds the two `Math.random()` draws of
      the initial velocity. The high score, the held keys, the pause flag and
      the geometry carry over. */
  function StartGame(s: GameState, d: StartDraws): (r: GameState)
    ensures r.isPlaying && !r.gameEnded
    ensures r.score == 0 && r.hitCount == 0 && r.speedLevel == 1
    ensures r.ball.speed == r.ball.baseSpeed
    ensures r.ball.trail == [] && r.particles == [] && r.hitEffect == None
    ensures r.paddle.angle == 0.0
    ensures r.ball.pos == Vec(s.arena.center.x, s.arena.center.y - 100.0)
    ensures SpeedProgression(r)
    ensures UnitDraw(d.vx) && UnitDraw(d.vy) ==>
      -2.0 <= r.ball.vel.x < 2.0 && 2.0 <= r.ball.vel.y < 4.0
    ensures r.highScore == s.highScore && r.held == s.held && r.isPaused == s.isPaused
    ensures r.arena == s.arena && r.ball.radius == s.ball.radius && r.ball.baseSpeed == s.ball.baseSpeed
  {
    s.(
      isPlaying := true,
      gameEnded := false,
      score := 0,
      hitCount := 0,
      speedLevel := 1,
      ball := s.ball.(
        pos := Vec(s.arena.center.x, s.arena.center.y - 100.0),
        speed := s.ball.baseSpeed,
        vel := Vec((d.vx - 0.5) * 4.0, d.vy * 2.0 + 2.0),
        trail := []),
      paddle := s.paddle.(angle := 0.0),
      particles := [],
      hitEffect := None)
  }

  /** Two states that differ only in what a session produces (score, counters,
      flags, ball motion, paddle angle, effects) start identical new sessions:
      nothing of a finished session leaks into the next. */
  lemma StartGameForgetsPreviousSession(s: GameState, t: GameState, d: StartDraws)
    requires s.arena == t.arena && s.highScore == t.highScore && s.held == t.held
    requires s.isPaused == t.isPaused
    requires s.ball.radius == t.ball.radius && s.ball.baseSpeed == t.ball.baseSpeed
    requires s.paddle.(angle := 0.0) == t.paddle.(angle := 0.0)
    ensures StartGame(s, d) == StartGame(t, d)
  {
  }

  /** The fifth, tenth, ... hit of a session raises the speed level. */
  predicate SpeedUpDue(s: GameState)
  {
    (s.hitCount + 1) % 5 == 0
  }

  /** `incrementScore`. On a speed-up it rescales the velocity to the new
      target speed, dividing by the current magnitude with no guard, so that
      magnitude must not be 0. */
  function IncrementScore(m: MathLib, s: GameState): (r: Step)
    requires SpeedUpDue(s) ==> Magnitude(m, s.ball.vel) != 0.0
    ensures r.state.score == s.score + 1 && r.state.hitCount == s.hitCount + 1
    ensures r.state.speedLevel == s.speedLevel + 1 <==> r.state.hitCount % 5 == 0
    ensures r.state.speedLevel == s.speedLevel || r.state.speedLevel == s.speedLevel + 1
    ensures r.effects == if r.state.hitCount % 5 == 0 then [PlaySpeedUp] else []
    ensures SpeedProgression(s) ==> SpeedProgression(r.state)
    ensures r.state.score - r.state.hitCount == s.score - s.hitCount
    ensures r.state.(score := s.score, hitCount := s.hitCount, speedLevel := s.speedLevel, ball := s.ball) == s
    ensures r.state.ball.(speed := s.ball.speed, vel := s.ball.vel) == s.ball
    ensures r.state.hitCount % 5 != 0 ==> r.state.ball == s.ball
  {
    var counted := s.(score := s.score + 1, hitCount := s.hitCount + 1);
    if counted.hitCount % 5 == 0 then
      var level := s.speedLevel + 1;
      var speed := s.ball.baseSpeed + (level - 1) as real * 0.5;
      var current := Magnitude(m, s.ball.vel);
      var vel := Vec(s.ball.vel.x / current * speed, s.ball.vel.y / current * speed);
      Step(counted.(speedLevel := level, ball := s.ball.(speed := speed, vel := vel)), [PlaySpeedUp])
    else
      Step(counted, [])
  }

  /** The ball moves at least at its target speed. */
  predicate AtLeastTargetSpeed(b: Ball)
  {
    Norm2(b.vel) >= b.speed * b.speed
  }

  /** The ball moves exactly at its target speed. */
  predicate AtTargetSpeed(b: Ball)
  {
    Norm2(b.vel) == b.speed * b.speed
  }

  /** After a speed-up the velocity has exactly the new target speed and,
      when that speed is not negative, keeps its direction: it is parallel to
      the old velocity and points the same way. */
  lemma SpeedUpRescalesVelocity(m: MathLib, s: GameState)
    requires SqrtLaw(m)
    requires SpeedUpDue(s) && Magnitude(m, s.ball.vel) != 0.0
    ensures var r := IncrementScore(m, s).state;
      && Norm2(r.ball.vel) == r.ball.speed * r.ball.speed
      && r.ball.vel.x * s.ball.vel.y == r.ball.vel.y * s.ball.vel.x
      && (r.ball.speed >= 0.0 ==> Dot(r.ball.vel, s.ball.vel) >= 0.0)
  {
    var v := s.ball.vel;
    var current := Magnitude(m, v);
    MagnitudeSquares(m, v);
    var r := IncrementScore(m, s).state;
    assert r.ball.vel == Vec(v.x / current * r.ball.speed, v.y / current * r.ball.speed);
    RescaleToLength(v, current, r.ball.speed);
  }

  /** The number of persistence requests among `effects`. */
  function Saves(effects: seq<Effect>): nat
  {
    if effects == [] then 0
    else (if effects[0].SaveHighScore? then 1 else 0) + Saves(effects[1..])
  }

  /** `gameOver`: the session ends, the game-over cue plays, and the score is
      persisted exactly once when it beats the stored high score. */
  function GameOver(s: GameState): (r: Step)
    ensures !r.state.isPlaying && r.state.gameEnded
    ensures r.state.highScore >= s.highScore && r.state.highScore >= s.score
    ensures r.state.highScore == s.highScore || r.state.highScore == s.score
    ensures |r.effects| > 0 && r.effects[0] == PlayGameOver
    ensures Saves(r.effects) == if s.score > s.highScore then 1 else 0
    ensures SaveHighScore(s.score) in r.effects <==> s.score > s.highScore
    ensures forall e :: e in r.effects && e.SaveHighScore? ==> e.value == r.state.highScore
    ensures r.state.(isPlaying := s.isPlaying, gameEnded := s.gameEnded, highScore := s.highScore) == s
  {
    var ended := s.(isPlaying := false, gameEnded := true);
    if s.score > s.highScore then
      assert Saves([SaveHighScore(s.score)]) == 1;
      Step(ended.(highScore := s.score), [PlayGameOver, SaveHighScore(s.score)])
    else
      Step(ended, [PlayGameOver])
  }
}

=== FILE: trail.dfy ===
/** The ball's trail (script.js:331-335): a first-in first-out buffer of
    pre-move positions holding at most `TrailCap` entries. */
module Trail {
  import opened Geometry

  const TrailCap: nat := 10

  /** Append `p`, then drop the oldest entry once the buffer is over its cap. */
  function PushTrail(trail: seq<Vec>, p: Vec): (r: seq<Vec>)
    ensures |trail| <= TrailCap ==> |r| <= TrailCap
    ensures |r| == if |trail| < TrailCap then |trail| + 1 else |trail|
    ensures r[|r| - 1] == p
    ensures r[..|r| - 1] == trail[|trail| + 1 - |r|..]
  {
    var t := trail + [p];
    assert t[..|t| - 1] == trail;
    if |t| > TrailCap then t[1..] else t
  }

  function Min(a: int, b: int): int { if a <= b then a else b }

  /** The trail after pushing every position of `history`, oldest first,
      onto an empty buffer. */
  function TrailOf(history: seq<Vec>): seq<Vec>
  {
    if history == [] then [] else PushTrail(TrailOf(history[..|history| - 1]), history[|history| - 1])
  }

  lemma PushBelowCap(t: seq<Vec>, p: Vec)
    requires |t| < TrailCap
    ensures PushTrail(t, p) == t + [p]
  {
  }

  lemma PushAtCap(t: seq<Vec>, p: Vec)
    requires |t| == TrailCap
    ensures PushTrail(t, p) == t[1..] + [p]
  {
  }

  /** Dropping the oldest of the last `k` entries before `h`'s final one and
      appending that final one gives the last `k` entries of `h`. */
  lemma WindowSlides(h: seq<Vec>, k: nat)
    requires 0 < k < |h|
    ensures h[..|h| - 1][|h| - 1 - k..][1..] + [h[|h| - 1]] == h[|h| - k..]
  {
    var n := |h|;
    var w := h[..n - 1][n - 1 - k..];
    assert w[1..] == h[n - k..n - 1];
    assert h[n - k..] == h[n - k..n - 1] + [h[n - 1]];
  }

  /** The trail is exactly the `TrailCap` most recent positions, in order. */
  lemma {:induction false} TrailKeepsMostRecent(history: seq<Vec>)
    ensures TrailOf(history) == history[|history| - Min(|history|, TrailCap)..]
  {
    if history != [] {
      var n := |history|;
      var x := history[n - 1];
      var prefix := history[..n - 1];
      assert history == prefix + [x];
      TrailKeepsMostRecent(prefix);
      var t := TrailOf(prefix);
      assert TrailOf(history) == PushTrail(t, x);
      if n <= TrailCap {
        assert t == prefix;
        PushBelowCap(t, x);
      } else {
        assert t == prefix[n - 1 - TrailCap..];
        PushAtCap(t, x);
        WindowSlides(history, TrailCap);
      }
    }
  }
}

=== FILE: visuals.dfy ===
/** The visual-only entities the engine owns: particle sparks
    (script.js:401-409, 526-563) and the paddle-hit ring (script.js:411-419). */
module Visuals {
  import opened Geometry
  import opened Entities

  // ---------------------------------------------------------------- particles

  /** One frame of a particle: move by its velocity, lose 0.02 life, shrink
      to 98% of its size. */
  function Advance(p: Particle): Particle
  {
    p.(pos := Add(p.pos, p.vel), life := p.life - 0.02, size := p.size * 0.98)
  }

  /** The filter condition of `updateParticles`. */
  predicate Visible(p: Particle) { p.life > 0.0 && p.size > 0.5 }

  /** `updateParticles`: advance every particle, keep the visible ones. */
  function UpdateParticles(ps: seq<Particle>): (r: seq<Particle>)
    ensures |r| <= |ps|
    ensures forall i :: 0 <= i < |r| ==> Visible(r[i])
  {
    if ps == [] then []
    else
      var q := Advance(ps[0]);
      var rest := UpdateParticles(ps[1..]);
      if Visible(q) then [q] + rest else rest
  }

  /** The positions `j >= i` in `ps` whose advanced particle is visible, in
      increasing order. */
  function SurvivorsFrom(ps: seq<Particle>, i: nat): seq<nat>
    requires i <= |ps|
    decreases |ps| - i
  {
    if i == |ps| then []
    else (if Visible(Advance(ps[i])) then [i] else []) + SurvivorsFrom(ps, i + 1)
  }

  /** The survivor indices from `i` on lie in `[i, |ps|)` and increase, and an
      index is listed exactly when its advanced particle is visible. */
  lemma {:induction false} SurvivorsFromExact(ps: seq<Particle>, i: nat)
    requires i <= |ps|
    decreases |ps| - i
    ensures forall k :: 0 <= k < |SurvivorsFrom(ps, i)| ==> i <= SurvivorsFrom(ps, i)[k] < |ps|
    ensures forall k, l :: 0 <= k < l < |SurvivorsFrom(ps, i)| ==>
      SurvivorsFrom(ps, i)[k] < SurvivorsFrom(ps, i)[l]
    ensures forall j :: i <= j < |ps| ==> (j in SurvivorsFrom(ps, i) <==> Visible(Advance(ps[j])))
  {
    if i < |ps| {
      SurvivorsFromExact(ps, i + 1);
      var head: seq<nat> := if Visible(Advance(ps[i])) then [i] else [];
      assert SurvivorsFrom(ps, i) == head + SurvivorsFrom(ps, i + 1);
    }
  }

  /** `UpdateParticles(ps[i..])` keeps, in order, the advanced particles at
      the survivor indices. */
  lemma {:induction false} UpdateParticlesAtSurvivors(ps: seq<Particle>, i: nat)
    requires i <= |ps|
    decreases |ps| - i
    ensures |SurvivorsFrom(ps, i)| == |UpdateParticles(ps[i..])|
    ensures forall k :: 0 <= k < |SurvivorsFrom(ps, i)| ==>
      SurvivorsFrom(ps, i)[k] < |ps| &&
      UpdateParticles(ps[i..])[k] == Advance(ps[SurvivorsFrom(ps, i)[k]])
  {
    if i < |ps| {
      UpdateParticlesAtSurvivors(ps, i + 1);
      assert ps[i..][1..] == ps[i + 1..];
      var q := Advance(ps[i]);
      var tailIx := SurvivorsFrom(ps, i + 1);
      var tail := UpdateParticles(ps[i + 1..]);
      var head: seq<nat> := if Visible(q) then [i] else [];
      var headP: seq<Particle> := if Visible(q) then [q] else [];
      assert SurvivorsFrom(ps, i) == head + tailIx;
      assert UpdateParticles(ps[i..]) == headP + tail;
      forall k | 0 <= k < |head + tailIx|
        ensures (head + tailIx)[k] < |ps| && (headP + tail)[k] == Advance(ps[(head + tailIx)[k]])
      {
        if k < |head| {
          assert (head + tailIx)[k] == i && (headP + tail)[k] == q;
        } else {
          assert (head + tailIx)[k] == tailIx[k - |head|];
          assert (headP + tail)[k] == tail[k - |head|];
        }
      }
    }
  }

  /** The survivors of `UpdateParticles(ps)` are an order-preserving
      subsequence of the advanced particles, and nothing visible is lost: the
      survivor indices increase, each survivor is the advanced form of the
      particle at its index, and an index is listed exactly when its advanced
      particle is visible. */
  lemma UpdateParticlesIsOrderedFilter(ps: seq<Particle>)
    ensures |SurvivorsFrom(ps, 0)| == |UpdateParticles(ps)|
    ensures forall k :: 0 <= k < |SurvivorsFrom(ps, 0)| ==>
      SurvivorsFrom(ps, 0)[k] < |ps| && UpdateParticles(ps)[k] == Advance(ps[SurvivorsFrom(ps, 0)[k]])
    ensures forall k, l :: 0 <= k < l < |SurvivorsFrom(ps, 0)| ==>
      SurvivorsFrom(ps, 0)[k] < SurvivorsFrom(ps, 0)[l]
    ensures forall j :: 0 <= j < |ps| ==> (j in SurvivorsFrom(ps, 0) <==> Visible(Advance(ps[j])))
    ensures forall k :: 0 <= k < |SurvivorsFrom(ps, 0)| ==>
      var p, q := ps[SurvivorsFrom(ps, 0)[k]], UpdateParticles(ps)[k];
      && q.pos == Vec(p.pos.x + p.vel.x, p.pos.y + p.vel.y) && q.vel == p.vel
      && q.life == p.life - 0.02 && q.size == p.size * 0.98 && q.tint == p.tint
  {
    assert ps[0..] == ps;
    SurvivorsFromExact(ps, 0);
    UpdateParticlesAtSurvivors(ps, 0);
  }

  /** Every particle the update keeps has life in (0, 1] and positive size if
      every particle before it did. */
  lemma UpdateParticlesKeepsBounds(ps: seq<Particle>)
    requires forall i :: 0 <= i < |ps| ==> ps[i].life <= 1.0
    ensures forall i :: 0 <= i < |UpdateParticles(ps)| ==>
      0.0 < UpdateParticles(ps)[i].life <= 1.0 && UpdateParticles(ps)[i].size > 0.0
  {
    UpdateParticlesIsOrderedFilter(ps);
    var ix := SurvivorsFrom(ps, 0);
    var r := UpdateParticles(ps);
    forall k | 0 <= k < |r|
      ensures 0.0 < r[k].life <= 1.0 && r[k].size > 0.0
    {
      assert r[k] == Advance(ps[ix[k]]);
    }
  }

  // ------------------------------------------------------------------ bursts

  /** One wall spark (script.js:553-561) at `at`, from its three draws. */
  function WallSpark(at: Vec, d: SparkDraw): Particle
  {
    Particle(at, Vec((d.vx - 0.5) * 3.0, (d.vy - 0.5) * 3.0), d.size * 2.0 + 1.0, 1.0, Magenta)
  }

  /** `createWallHitEffect`: three magenta sparks at the ball, velocity
      components in [-1.5, 1.5), size in [1, 3), full life. */
  function WallSparks(at: Vec, d: WallDraws): (r: seq<Particle>)
    ensures |r| == 3
    ensures forall i :: 0 <= i < 3 ==> r[i].pos == at && r[i].life == 1.0 && r[i].tint == Magenta
    ensures forall i :: 0 <= i < 3 ==> UnitDraw(d[i].vx) && UnitDraw(d[i].vy) && UnitDraw(d[i].size) ==>
      -1.5 <= r[i].vel.x < 1.5 && -1.5 <= r[i].vel.y < 1.5 && 1.0 <= r[i].size < 3.0
  {
    [WallSpark(at, d[0]), WallSpark(at, d[1]), WallSpark(at, d[2])]
  }

  /** The direction of paddle spark `i`: `(Math.PI * 2 * i) / 4`. */
  function SparkAngle(i: nat): real
  {
    (PI * 2.0 * i as real) / 4.0
  }

  function PaddleSpark(m: MathLib, at: Vec, i: nat, size: real): Particle
  {
    Particle(at, Vec(Cos(m, SparkAngle(i)) * 2.0, Sin(m, SparkAngle(i)) * 2.0), size * 3.0 + 1.0, 1.0, Cyan)
  }

  /** The four cyan sparks of `createPaddleHitEffect` (script.js:536-547): at
      `at`, full life, size in [1, 4), aimed at the four quarter turns. */
  function PaddleSparks(m: MathLib, at: Vec, sizes: SizeDraws): (r: seq<Particle>)
    ensures |r| == 4
    ensures forall i :: 0 <= i < 4 ==>
      r[i].pos == at && r[i].life == 1.0 && r[i].tint == Cyan &&
      r[i].vel == Vec(Cos(m, SparkAngle(i)) * 2.0, Sin(m, SparkAngle(i)) * 2.0)
    ensures forall i :: 0 <= i < 4 ==> UnitDraw(sizes[i]) ==> 1.0 <= r[i].size < 4.0
  {
    [PaddleSpark(m, at, 0, sizes[0]), PaddleSpark(m, at, 1, sizes[1]),
     PaddleSpark(m, at, 2, sizes[2]), PaddleSpark(m, at, 3, sizes[3])]
  }

  /** `createPaddleHitEffect`: a fresh ring at `at` replaces any ring, and
      the four paddle sparks are appended after the existing particles. */
  function PaddleHitEffect(m: MathLib, s: GameState, at: Vec, sizes: SizeDraws): (r: GameState)
    ensures r.hitEffect == Some(FreshRing(at))
    ensures |r.particles| == |s.particles| + 4 && r.particles[..|s.particles|] == s.particles
    ensures forall i :: |s.particles| <= i < |r.particles| ==>
      r.particles[i].life == 1.0 && r.particles[i].pos == at && r.particles[i].tint == Cyan
    ensures (forall i :: 0 <= i < 4 ==> UnitDraw(sizes[i])) ==>
      forall i :: |s.particles| <= i < |r.particles| ==> r.particles[i].size >= 1.0
    ensures r.(hitEffect := s.hitEffect, particles := s.particles) == s
  {
    var sparks := PaddleSparks(m, at, sizes);
    var ps := s.particles + sparks;
    assert ps[..|s.particles|] == s.particles;
    assert forall i :: |s.particles| <= i < |ps| ==> ps[i] == sparks[i - |s.particles|];
    s.(hitEffect := Some(FreshRing(at)), particles := ps)
  }

  /** Every paddle spark leaves at speed 2, whatever its direction. */
  lemma PaddleSparkSpeed(m: MathLib, at: Vec, i: nat, size: real)
    requires TrigLaw(m)
    ensures Norm2(PaddleSpark(m, at, i, size).vel) == 4.0
  {
    var u := Vec(Cos(m, SparkAngle(i)), Sin(m, SparkAngle(i)));
    assert Norm2(u) == 1.0;
    ScaledUnitLength(u, 2.0);
  }

  // -------------------------------------------------------------------- ring

  /** The ring a paddle hit at `at` starts (script.js:527-533). */
  function FreshRing(at: Vec): Ring { Ring(at, 0.0, 1.0) }

  /** `updateHitEffect`: grow by 3, fade by 0.05, clear once no longer visible. */
  function UpdateHitEffect(h: Option<Ring>): (r: Option<Ring>)
    ensures h.None? ==> r.None?
    ensures r.Some? ==> h.Some? && r.value.center == h.value.center
    ensures r.Some? ==> r.value.opacity > 0.0 && r.value.opacity < h.value.opacity
  {
    match h
    case None => None
    case Some(ring) =>
      var next := Ring(ring.center, ring.radius + 3.0, ring.opacity - 0.05);
      if next.opacity <= 0.0 then None else Some(next)
  }

  /** The ring after `k` frames of `UpdateHitEffect`. */
  function Aged(h: Option<Ring>, k: nat): Option<Ring>
  {
    if k == 0 then h else UpdateHitEffect(Aged(h, k - 1))
  }

  /** A fresh ring is visible for 19 frames, growing 3 and fading 0.05 per frame. */
  lemma {:induction false} RingFades(at: Vec, k: nat)
    requires k < 20
    ensures Aged(Some(FreshRing(at)), k) == Some(Ring(at, 3.0 * k as real, 1.0 - 0.05 * k as real))
  {
    if k > 0 {
      RingFades(at, k - 1);
    }
  }

  /** ... and is cleared by exactly the 20th update. */
  lemma RingClearsOnTwentiethFrame(at: Vec)
    ensures Aged(Some(FreshRing(at)), 19).Some?
    ensures Aged(Some(FreshRing(at)), 20).None?
  {
    RingFades(at, 19);
  }
}
